=== FILE: README.md ===
# NSW COVID-19 map: postcode distances, case count and postcode input

A Dafny model of the logic inside the `App` and `Header` components of the
NSW COVID-19 case map. The user picks a home postcode. The application then
works out, for every NSW postcode, the distance from that home to the
postcode's boundary. It highlights the postcodes within the chosen range and
shows how many cases they hold together.

What is modelled:

- **Labels and the postcode dictionary** (`compute_centres`). Every feature
  with properties gets a suburb label. The label lists up to four names, then
  " and N more suburb(s)". The dictionary maps each postcode to its centre and
  suburb names. Modules `Text`, `Labels` and `Centres`.
- **The distance table.** `computeUnsetDistances` puts the sentinel 2000 km
  in every entry. `compute_distances` takes the minimum vertex distance over
  ring 0 of a polygon, or over ring 0 of every part of a multi-polygon. It
  then forces the selected postcode to 0. Both update the one shared `Map` in
  place. Module `Distances`.
- **The generic in-place update.** Every `Map.set` inside `features.forEach`
  is an instance of `Tables.Overlay`. It is a left fold in which the last write
  to a key wins and keys nobody writes keep their value. It is characterised
  by quantified lemmas: domain, untouched keys, last writer, uniform writes,
  stability and idempotence.
- **The case count** (`countCases`). Module `Cases`.
- **The `App` state and its transitions.** These are `updatePostcode`,
  `clearDirty`, the range change, and the steps after the data has loaded.
  Module `App`.
- **The `Header` logic.** This is the three-way postcode classification, the
  submit gate, the helper message, the "Change postcode" click and the slider
  bounds. Module `Header`.
- **Both components together.** `Session` is an event-driven state machine
  whose events are data loaded, typing, submit, change, slider and map sync.
  An invariant holds in every reachable state. It says a selected postcode is
  always a dictionary key, and is at distance 0 when its dictionary centre is
  defined. It also says that with no selection
  every postcode is at the sentinel, so the count passed to the header is 0.
  The header displays the count only once a postcode is selected
  (src/Header.tsx:154-156).
- **A worked example** (`Scenario`). There are two literal square regions,
  and the distance is a planar stand-in whose values can be checked by hand.
  It pins down the forced-origin case. It also pins down the vertex-sampling
  edge: a point inside a region is 1 km from it when its nearest vertex is
  1 km away.

turf's `distance`, `centerOfMass` and `centroid` are floating-point geodesy.
They appear only as the uninterpreted function fields of a `Geodesy` value
passed in as a parameter. Distances are `real`s. `Number.MAX_VALUE` is written
out exactly as (2 − 2^−52)·2^1023.

Three behaviours of the code are worth knowing:

- The distance table is patched key by key, not rebuilt. A postcode whose
  features are all skipped keeps its previous entry. A skipped feature is
  one with absent properties, or one with an unknown shape when it is not the
  selected postcode.
- Selecting a code outside the dictionary still overwrites the selected code
  (`centrePostCode`). The table, the
  centre and the dirty flag stay.
- The selected postcode gets its 0 from a second write in the same loop
  iteration, after the vertex minimum. The contract of
  `Distances.ComputeDistances` shows that the two writes amount to one.

## Model

| member | source | states |
|---|---|---|
| Text.JoinNames | src/App.tsx:189 | ECMAScript's `join` loop gives exactly `Join`. The loop starts empty and puts the separator before every element but the first. |
| Text.NatToString | src/App.tsx:194 | The rendering of the hidden-name count has at least one character. Every character is an ASCII digit, and there is no leading zero. |
| Text.DecimalRoundTrip | src/App.tsx:194 | Reading the rendered count back as decimal gives the count itself. |
| Labels.NamesString | src/App.tsx:187-197 | Every label starts with the shown names joined by ", ". The label is exactly that join if and only if there are at most four names. |
| Labels.LabelShape | src/App.tsx:187-197 | The shown names are all the names when there are at most four, and otherwise exactly the first four, in their original order. A short, non-empty label is as long as all the names plus one ", " between each pair of neighbours. |
| Labels.LongLabelCount | src/App.tsx:190-197 | With more than four names the label is: the first four joined, then " and ", then a digit run that parses back to n−4, then " more suburbs" if n−4 > 1 or " more suburb" if n−4 = 1. |
| Centres.Annotate | src/App.tsx:184-217 | A feature with properties gets its label and its centre (centre of mass for a polygon, centroid for a multi-polygon, the stored value for any other shape). Its id, geometry, names and cases do not change. A feature without properties is left alone. |
| Centres.ComputeCentres | src/App.tsx:183-231 | Every feature is labelled in place and in order, as `Annotate` states. Afterwards a postcode is a dictionary key exactly when it was a key before or some feature with properties carries it. |
| Centres.DictionaryEntry | src/App.tsx:201-229 | A postcode's entry comes from its last feature with properties. It holds that feature's names and its shape-dependent centre. |
| Distances.RingMin | src/App.tsx:254-263 | The vertex fold is at most the start value and at most the distance to every vertex. It equals the start value or one of those distances. With no vertices it stays at the start. |
| Distances.PartsMin | src/App.tsx:266-279 | The same holds across ring 0 of every part of a multi-polygon: at most every such vertex distance, and equal to the start value or to one of them. |
| Distances.MultiPolygonIsFlatRing | src/App.tsx:270-279 | A multi-polygon's distance equals the polygon computation over all its exterior rings laid end to end. Holes never take part. |
| Distances.ComputeDistances | src/App.tsx:246-292 | Each loop iteration's two writes (the vertex minimum, then 0 for the origin) amount to one keyed write. So the whole loop is an in-place keyed update of the existing table, in the sense of `Tables.Overlay`. |
| Distances.OriginIsZero | src/App.tsx:285-289 | When an origin postcode is given and some feature with properties carries it, its entry ends at exactly 0. This holds even for an unknown shape. |
| Distances.EntryIsVertexMinimum | src/App.tsx:254-281 | Any other postcode with properties and a known shape ends with the vertex minimum of its last such feature. |
| Distances.StaleEntriesSurvive | src/App.tsx:282-284 | Take a postcode whose features all lack properties, or have an unknown shape and are not the origin. Its entry keeps its old value, or stays absent. |
| Distances.ComputeDistancesIdempotent | src/App.tsx:246-292 | Recomputing with the same point and origin leaves the table unchanged. |
| Distances.UnsetDistances | src/App.tsx:237-242 | After unsetting, every postcode that some feature with properties carries holds 2000. No other key is added, removed or changed. |
| App.ComputeUnset | src/App.tsx:233-244 | Without data nothing changes, not even the dirty flag. With data, every listed postcode holds 2000, every other entry is as it was, the flag is dirty, and no other field changes. |
| Cases.SumCases | src/App.tsx:171-180 | When every case count is non-negative, the in-range sum lies between 0 and the total number of cases. |
| Cases.CountCases | src/App.tsx:163-180 | The count is −1 while no data is loaded. Once data is loaded and case counts are non-negative, the count lies between 0 and the total number of cases. |
| Cases.NothingInRange | src/App.tsx:172-179 | When no feature with properties has an entry within range, the count is 0. Features without an entry never contribute. |
| Cases.InRangeIsCounted | src/App.tsx:172-179 | A feature with properties whose entry is within range adds exactly its cases to the count. The count is what the features before it contribute, plus its cases, plus what the features after it contribute, whatever the sign of any count. |
| Cases.CountMonotone | src/App.tsx:175 | Widening the range never lowers the count. |
| Cases.SumCasesAppend | src/App.tsx:171-180 | The count over two concatenated collections is the sum of their counts. |
| App.UpdatePostcode | src/App.tsx:147-161 | The selected code is always overwritten. The dictionary, the data and the range never change. A code outside the dictionary, or any code before the data loads, changes nothing else. Clearing the selection clears the centre. With data loaded, it also puts every listed postcode at 2000, leaves every other key and value as it was, and makes the flag dirty. Without data, the table and the flag are untouched. |
| App.SetRange | src/App.tsx:96-98 | The range becomes the given value and nothing else changes. |
| App.ClearDirty | src/App.tsx:125-127 | The dirty flag becomes false and nothing else changes. Calling it again is therefore a no-op. |
| App.UpdateToKnownCode | src/App.tsx:153-159 | A dictionary key with data loaded recomputes the table from its centre with that key as origin. The key's entry ends at 0, the centre becomes the dictionary centre, and the flag becomes dirty. |
| App.Load | src/App.tsx:67-87 | Loading stores the collection as `compute_centres` labels it, and the dictionary it builds. The table is dirty afterwards. The selection and the range are kept. When no recompute is pending, the centre is kept too and every listed postcode is at 2000. |
| App.PostLoadKeepsVertexMinimum | src/App.tsx:76-85 | The recompute after loading passes no origin. So the selected postcode keeps its vertex minimum from its own centre and is not forced to 0. |
| Header.ValidatePostcode | src/Header.tsx:78-91 | Valid exactly for dictionary keys, whatever their length or characters. A non-key whose length is not 4 is Invalid. A 4-character non-key containing a non-digit is Invalid. Unknown exactly for a non-key of 4 ASCII digits. The last branch is unreachable. |
| Header.PostCodeIsSubmittable | src/Header.tsx:93-100 | Submitting is possible exactly when the typed code is a dictionary key. |
| Header.ResultMessage | src/Header.tsx:102-113 | A key gets its suburb names joined by ", ". A non-key of 4 digits gets the code followed by " is not in our database of NSW postcodes". Anything else gets "Enter a NSW postcode". |
| Header.Submit | src/Header.tsx:137-141 | The submit click reaches `updatePostcode` only with a dictionary key. Otherwise it does nothing. |
| Header.ChangePostcode | src/Header.tsx:200-212 | "Change postcode" empties the input. So, unless the empty string is a key, the helper reads "Enter a NSW postcode" and submitting is disabled. It clears the selection and the centre. With data loaded, every listed postcode is back at 2000 and the flag is dirty. The dictionary, the data and the range are kept. |
| Scenario.FromCornerWithOrigin | src/App.tsx:246-292 | Two literal squares, with a planar stand-in for the distance. Selecting `A` from its corner puts `A` at 0 and `B` at 200. A 1 km range counts `A`'s 10 cases and not `B`'s 5. |
| Scenario.FromInsideWithoutOrigin | src/App.tsx:254-263 | From the centre of `A` with no origin, `A`'s entry is 1, its nearest vertex. A 0.5 km range therefore counts nothing although the point lies inside `A`; 1 km counts `A` alone. |
| Session.StartInv | src/App.tsx:45-57 | The constructor's state satisfies the invariant. The initial range 1 is a slider value. |
| Session.StepPreservesInv | src/App.tsx:147-161 | Every event keeps the invariant. A selected postcode is a dictionary key; when its centre is defined, it is the centre and its entry is 0. With no selection, every listed postcode is at 2000. The range is a slider value. |
| Session.NoSelectionCountsNothing | src/Header.tsx:64-68 | The slider stops at 20 km, so the sentinel 2000 is always out of range. With data loaded and nothing selected, the count passed to the header is 0. The header displays it only once a postcode is selected. |
| Session.Step | src/Header.tsx:64-141 | The typing, submit and slider branches model these header handlers; the data-load branch models src/App.tsx:67-87 and the map acknowledgement models src/App.tsx:125-127. Typing changes only the input text. Only the slider changes the range, and only to a value the slider can produce. Only the first data load stores data and changes the dictionary. The map's acknowledgement leaves the table clean. |
| Session.SelectionCountsHome | src/App.tsx:285-289 | With a postcode selected whose dictionary centre is defined, the count is exactly what the other features contribute plus that postcode's own cases, at every slider value, whatever the sign of any count. |

## Left out

- Console logging is left out, because it changes no state: "unsetting distances" (src/App.tsx:72), "recomputing distances" (src/App.tsx:251) and "unknown shape" (src/App.tsx:216 and 283).
- Fetching and decoding the data are left out: the HTTP fetch, geobuf and Pbf, and the rethrow of a network error. The model starts from the decoded feature sequence (`Session.DataLoaded`).
- turf's `distance`, `centerOfMass` and `centroid` are foreign floating-point geodesy. They are uninterpreted fields of `Geodesy`, and no property depends on their values.
- The map component is left out: mapbox sources, layers, paint expressions, popups and the metres-to-pixels projection. Its rising-edge consumption of the dirty flag appears only as the `DistancesSynced` event, which calls `clearDirty`.
- React's asynchronous `setState` is treated as immediate assignment. The viewport, `mapInitialised`, the loading screen, the About dialog and the slider widget itself are left out.
- The header shows either the input or the slider, depending on whether a postcode is selected. It shows "Change postcode" only for a truthy selection. These visibility rules are not guards on the `Session` events, because the invariants hold without them.
- App.UpdatePostcode: a dictionary centre is always the pair `[centre_lng, centre_lat]`, so for a feature of unknown shape it can hold undefined coordinates. The source hands them to turf's `point`, which throws from the event handler. The model stops at that point: only the selected code has changed.
- App.Load: in the same situation after loading, the source stores the undefined centre in `centreCoordinates` (src/App.tsx:83), and then `point` throws. The catch at src/App.tsx:89-92 turns that into "Network error" and the session ends. The model does not represent the failed session. It returns the loaded state without the recompute and without the stored centre. This branch needs a selection before the data has loaded, which the header never allows, so `Session` never reaches it.
- Integers are unbounded and distances are exact reals. JavaScript doubles would round sums of case counts only beyond 2^53, which realistic counts do not reach.
- Feature ids are assumed to be strings, as the source's `as string` casts assume.
- The model assumes well-formed GeoJSON. On each input below, a throw inside `compute_centres` or `compute_distances` during loading reaches the catch at src/App.tsx:89-92, and the session ends with "Network error". None of these failures is modelled.
- `None` properties model `null` only. Undefined properties pass the `!== null` test and then throw when `names` is read (src/App.tsx:186). The model treats `None` as skipped, as the source does for `null`.
- A null geometry throws when its `type` is read (src/App.tsx:201). It cannot be represented.
- turf's `polygon` rejects a ring with fewer than four positions, and a ring whose first and last positions differ (src/App.tsx:202). The model accepts such rings and computes their centre of mass through `Geodesy`.
- A polygon always has its exterior ring, as section 3.1.6 of RFC 7946 requires. An empty coordinate array cannot be represented. On one, the source's `coordinates[0].forEach` would throw.
- Header.ValidatePostcode counts characters, while JavaScript's `length` counts UTF-16 code units. The classification is the same either way. An astral character is never a digit, so a code containing one is Invalid under both counts unless it is a key.
- Other GeoJSON fields of a feature, other than `id`, `properties` and `geometry`, are left out because the core never reads them.
- The `Scenario` distance is a taxicab stand-in, not the geodesic distance. Its numbers illustrate the model and are not the application's kilometres.

=== FILE: app.dfy ===
/** The `App` component's state and the transitions that touch the distance
    table: loading the data, selecting or clearing a postcode, moving the
    range, and the map acknowledging a table change. */
module App {

  import opened Options
  import opened Features
  import opened Centres
  import opened Distances
  import opened Cases

  /** The component state, without the viewport and the map-initialised flag
      (which the table never reads). `mapData` doubles as `mapDataLoaded`. */
  datatype AppState = AppState(
    mapData: Option<seq<Feature>>,
    dict: PostcodeDict,
    distances: DistanceTable,
    distancesDirty: bool,
    centrePostCode: Option<string>,
    centreCoordinates: Option<Point>,
    range: real)

  const INITIAL_RANGE: real := 1.0

  /** The state the constructor sets up. */
  function Initial(): AppState
  {
    AppState(None, map[], map[], false, None, None, INITIAL_RANGE)
  }

  /** `computeUnsetDistances`: nothing at all without data (not even the dirty
      flag); otherwise every postcode with properties goes to the sentinel,
      every other entry stays as it was, the table is marked dirty and no
      other field changes. */
  function ComputeUnset(s: AppState, data: Option<seq<Feature>>): (r: AppState)
    ensures data.None? ==> r == s
    ensures data.Some? ==> r.distancesDirty && r.(distances := s.distances, distancesDirty := s.distancesDirty) == s
    ensures data.Some? ==> forall k :: Listed(data.value, k) ==> k in r.distances && r.distances[k] == UNSET_DISTANCE
    ensures data.Some? ==> forall k :: !Listed(data.value, k) ==> (k in r.distances <==> k in s.distances)
    ensures data.Some? ==> forall k :: !Listed(data.value, k) && k in s.distances ==> r.distances[k] == s.distances[k]
  {
    match data
    case None => s
    case Some(fs) => s.(distances := UnsetDistances(s.distances, fs), distancesDirty := true)
  }

  /** `compute_distances` followed by marking the table dirty. */
  function ComputeFrom(s: AppState, fs: seq<Feature>, from: Point, origin: Option<string>, geo: Geodesy): AppState
  {
    s.(distances := ComputeDistances(s.distances, fs, geo.distance, from, origin), distancesDirty := true)
  }

  /** `updatePostcode`. The selected code is recorded first, whatever
      follows. Clearing the selection clears the centre and, with data
      loaded, puts every postcode with properties back at the sentinel
      (other keys untouched) and marks the table dirty; without data nothing
      else changes. A code in the dictionary, once data is loaded, becomes
      the origin of a recompute from its centre. */
  function UpdatePostcode(s: AppState, code: Option<string>, geo: Geodesy): (r: AppState)
    ensures r.centrePostCode == code
    ensures r.dict == s.dict && r.mapData == s.mapData && r.range == s.range
    ensures code.Some? && (code.value !in s.dict || s.mapData.None?) ==> r == s.(centrePostCode := code)
    ensures code.None? ==> r.centreCoordinates.None?
    ensures code.None? && s.mapData.None? ==> r.distances == s.distances && r.distancesDirty == s.distancesDirty
    ensures code.None? && s.mapData.Some? ==> r.distancesDirty
    ensures code.None? && s.mapData.Some? ==>
              forall k :: Listed(s.mapData.value, k) ==> k in r.distances && r.distances[k] == UNSET_DISTANCE
    ensures code.None? && s.mapData.Some? ==>
              forall k :: !Listed(s.mapData.value, k) ==>
                && (k in r.distances <==> k in s.distances)
                && (k in s.distances ==> r.distances[k] == s.distances[k])
  {
    var s1 := s.(centrePostCode := code);
    match code
    case None => ComputeUnset(s1, s1.mapData).(centreCoordinates := None)
    case Some(c) =>
      if s1.mapData.Some? && c in s1.dict then
        match s1.dict[c].centre
        case Some(p) => ComputeFrom(s1, s1.mapData.value, p, Some(c), geo).(centreCoordinates := Some(p))
        case None => s1
      else s1
  }

  /** The `clearDirty` callback the map calls once it has pushed the table
      into its feature state. */
  function ClearDirty(s: AppState): (r: AppState)
    ensures !r.distancesDirty
    ensures r.(distancesDirty := s.distancesDirty) == s
  {
    s.(distancesDirty := false)
  }

  /** `handleRangeChange`: the new range, nothing else. */
  function SetRange(s: AppState, range: real): (r: AppState)
    ensures r.range == range
    ensures r.(range := s.range) == s
  {
    s.(range := range)
  }

  /** The number passed to the header. */
  function NumCases(s: AppState): int
  {
    CountCases(s.range, s.distances, s.mapData)
  }

  /** Whether the post-load step recomputes: a selected code that is truthy
      (not the empty string) and is in the dictionary. */
  predicate RecomputesAfterLoad(s: AppState)
  {
    s.centrePostCode.Some? && s.centrePostCode.value != "" && s.centrePostCode.value in s.dict
  }

  /** What happens once the decoded collection arrives: label the features
      and build the dictionary, unset the table, store the data, and, if a
      postcode is already selected, recompute from its centre with no
      origin. The stored data is the labelled collection, the dictionary
      gains exactly the postcodes of features with properties, the table is
      dirty afterwards, and the selection and the range are kept. With no
      recompute pending (the usual case: nothing selected yet) the centre is
      kept too and every postcode with properties is at the sentinel. */
  function Load(s: AppState, fs: seq<Feature>, geo: Geodesy): (r: AppState)
    ensures r.mapData.Some? && |r.mapData.value| == |fs|
    ensures forall i :: 0 <= i < |fs| ==> r.mapData.value[i] == Annotate(fs[i], geo)
    ensures forall k :: k in r.dict <==> k in s.dict || Listed(fs, k)
    ensures r.distancesDirty
    ensures r.centrePostCode == s.centrePostCode && r.range == s.range
    ensures !RecomputesAfterLoad(s.(dict := ComputeCentres(s.dict, fs, geo).dict)) ==>
              && r.centreCoordinates == s.centreCoordinates
              && forall k :: Listed(fs, k) ==> k in r.distances && r.distances[k] == UNSET_DISTANCE
  {
    ListedAfterIndex(s.dict, fs, geo);
    var index := ComputeCentres(s.dict, fs, geo);
    var unset := ComputeUnset(s.(dict := index.dict), Some(index.features));
    var loaded := unset.(mapData := Some(index.features));
    if RecomputesAfterLoad(loaded) then
      match loaded.dict[loaded.centrePostCode.value].centre
      case Some(p) => ComputeFrom(loaded.(centreCoordinates := Some(p)), index.features, p, None, geo)
      case None => loaded
    else loaded
  }

  /** Selecting a postcode of the dictionary once data is loaded recomputes
      the table with that postcode as origin, which ends at 0, moves the centre
      to the dictionary centre and marks the table dirty. */
  lemma UpdateToKnownCode(s: AppState, c: string, geo: Geodesy)
    requires s.mapData.Some? && c in s.dict && s.dict[c].centre.Some?
    ensures var r := UpdatePostcode(s, Some(c), geo);
            var p := s.dict[c].centre.value;
            && r.centrePostCode == Some(c)
            && r.centreCoordinates == Some(p)
            && r.distancesDirty
            && r.distances == ComputeDistances(s.distances, s.mapData.value, geo.distance, p, Some(c))
            && (Listed(s.mapData.value, c) ==> c in r.distances && r.distances[c] == 0.0)
  {
    if Listed(s.mapData.value, c) {
      OriginIsZero(s.distances, s.mapData.value, geo.distance, s.dict[c].centre.value, c);
    }
  }

  /** The post-load recompute passes no origin: a selected postcode whose
      feature is a polygon or multi-polygon keeps its vertex minimum from its
      own centre instead of being forced to 0. */
  lemma PostLoadKeepsVertexMinimum(s: AppState, fs: seq<Feature>, geo: Geodesy, i: int)
    requires 0 <= i < |fs| && fs[i].props.Some? && !fs[i].geometry.Other?
    requires forall j :: i < j < |fs| && fs[j].id == fs[i].id ==> fs[j].props.None?
    requires fs[i].id != "" && s.centrePostCode == Some(fs[i].id)
    ensures var r := Load(s, fs, geo);
            var p := CentreFor(fs[i].geometry, fs[i].props.value.centre, geo).value;
            && r.centreCoordinates == Some(p)
            && fs[i].id in r.distances
            && Some(r.distances[fs[i].id]) == VertexDistance(geo.distance, p, fs[i].geometry)
  {
    var index := ComputeCentres(s.dict, fs, geo);
    DictionaryEntry(s.dict, fs, geo, i);
    var p := CentreFor(fs[i].geometry, fs[i].props.value.centre, geo).value;
    var unset := UnsetDistances(s.distances, index.features);
    forall j | i < j < |index.features| && index.features[j].id == index.features[i].id
      ensures index.features[j].props.None? || index.features[j].geometry.Other?
    {
    }
    EntryIsVertexMinimum(unset, index.features, geo.distance, p, None, i);
  }
}

=== FILE: cases.dfy ===
/** `countCases`: the number shown as "N COVID-19 cases within R km". */
module Cases {

  import opened Options
  import opened Features
  import opened Distances

  /** What one feature adds: its cases when it has properties and its
      postcode has an entry no greater than `range`. */
  function Contribution(range: real, table: DistanceTable, f: Feature): int
  {
    if f.props.Some? && f.id in table && table[f.id] <= range then f.props.value.cases else 0
  }

  ghost predicate NonNegativeCases(fs: seq<Feature>)
  {
    forall i :: 0 <= i < |fs| && fs[i].props.Some? ==> fs[i].props.value.cases >= 0
  }

  /** Sum of all cases, in range or not. */
  function TotalCases(fs: seq<Feature>): int
    decreases |fs|
  {
    if |fs| == 0 then 0
    else (if fs[0].props.Some? then fs[0].props.value.cases else 0) + TotalCases(fs[1..])
  }

  /** The `forEach` accumulation of `countCases`. With non-negative per-postcode
      counts the in-range sum lies between 0 and the total. */
  function SumCases(range: real, table: DistanceTable, fs: seq<Feature>): (r: int)
    ensures NonNegativeCases(fs) ==> 0 <= r <= TotalCases(fs)
    decreases |fs|
  {
    if |fs| == 0 then 0
    else
      assert NonNegativeCases(fs) ==> NonNegativeCases(fs[1..]) by {
        forall i | 0 <= i < |fs[1..]| ensures fs[1..][i] == fs[i + 1] { }
      }
      Contribution(range, table, fs[0]) + SumCases(range, table, fs[1..])
  }

  /** -1 before the data has loaded, the in-range sum afterwards; once data is
      loaded and the per-postcode counts are non-negative, never the -1 marker
      and at most the total. */
  function CountCases(range: real, table: DistanceTable, data: Option<seq<Feature>>): (r: int)
    ensures data.None? ==> r == -1
    ensures data.Some? && NonNegativeCases(data.value) ==> 0 <= r <= TotalCases(data.value)
  {
    match data
    case None => -1
    case Some(fs) => SumCases(range, table, fs)
  }

  /** The count of a concatenation is the sum of the counts. */
  lemma {:induction false} SumCasesAppend(range: real, table: DistanceTable, a: seq<Feature>, b: seq<Feature>)
    ensures SumCases(range, table, a + b) == SumCases(range, table, a) + SumCases(range, table, b)
    decreases |a|
  {
    if |a| == 0 {
      assert a + b == b;
    } else {
      assert (a + b)[1..] == a[1..] + b;
      SumCasesAppend(range, table, a[1..], b);
    }
  }

  /** When no feature with properties has an entry within `range` (no entry
      at all, or one further away), nothing is counted. */
  lemma {:induction false} NothingInRange(range: real, table: DistanceTable, fs: seq<Feature>)
    requires forall i :: 0 <= i < |fs| && fs[i].props.Some? && fs[i].id in table ==> table[fs[i].id] > range
    ensures SumCases(range, table, fs) == 0
    decreases |fs|
  {
    if |fs| > 0 {
      forall i | 0 <= i < |fs[1..]| && fs[1..][i].props.Some? && fs[1..][i].id in table
        ensures table[fs[1..][i].id] > range
      {
        assert fs[1..][i] == fs[i + 1];
      }
      NothingInRange(range, table, fs[1..]);
    }
  }

  /** Widening the range never lowers the count when counts are non-negative. */
  lemma {:induction false} CountMonotone(r1: real, r2: real, table: DistanceTable, fs: seq<Feature>)
    requires r1 <= r2
    requires NonNegativeCases(fs)
    ensures SumCases(r1, table, fs) <= SumCases(r2, table, fs)
    decreases |fs|
  {
    if |fs| > 0 {
      assert NonNegativeCases(fs[1..]) by {
        forall i | 0 <= i < |fs[1..]| && fs[1..][i].props.Some? ensures fs[1..][i].props.value.cases >= 0 {
          assert fs[1..][i] == fs[i + 1];
        }
      }
      CountMonotone(r1, r2, table, fs[1..]);
    }
  }

  /** A feature with properties whose entry is within range adds exactly its
      cases to the count, between what the features before it and the
      features after it contribute, whatever the sign of any count. */
  lemma InRangeIsCounted(range: real, table: DistanceTable, fs: seq<Feature>, i: int)
    requires 0 <= i < |fs| && fs[i].props.Some?
    requires fs[i].id in table && table[fs[i].id] <= range
    ensures SumCases(range, table, fs)
            == SumCases(range, table, fs[..i]) + fs[i].props.value.cases + SumCases(range, table, fs[i + 1..])
  {
    assert fs == fs[..i] + fs[i..];
    SumCasesAppend(range, table, fs[..i], fs[i..]);
    assert fs[i..][1..] == fs[i + 1..];
  }
}

=== FILE: centres.dfy ===
/** `compute_centres`: labels every feature and builds the postcode
    dictionary from postcode to centre and suburb names. */
module Centres {

  import opened Options
  import opened Features
  import opened Tables
  import opened Labels

  /** A dictionary entry: `centre` is `None` when the feature's properties
      held no `centre_lng`/`centre_lat` (an unknown shape). */
  datatype DictEntry = DictEntry(centre: Option<Point>, names: seq<string>)

  type PostcodeDict = map<string, DictEntry>

  /** The centre a feature's geometry yields: the centre of mass of a
      polygon, the centroid of a multi-polygon; any other shape leaves the
      stored centre as it was. */
  function CentreFor(g: Geometry, stored: Option<Point>, geo: Geodesy): Option<Point>
  {
    match g
    case Polygon(pc) => Some(geo.centerOfMass(pc))
    case MultiPolygon(parts) => Some(geo.centroid(parts))
    case Other => stored
  }

  /** What one iteration writes into a feature with properties. */
  function Annotate(f: Feature, geo: Geodesy): (r: Feature)
    ensures r.id == f.id && r.geometry == f.geometry && r.props.Some? == f.props.Some?
    ensures f.props.Some? ==>
              && r.props.value.names == f.props.value.names
              && r.props.value.cases == f.props.value.cases
              && r.props.value.namesString == Some(NamesString(f.props.value.names))
              && r.props.value.centre == CentreFor(f.geometry, f.props.value.centre, geo)
  {
    match f.props
    case None => f
    case Some(p) =>
      var centre := CentreFor(f.geometry, p.centre, geo);
      f.(props := Some(p.(namesString := Some(NamesString(p.names)), centre := centre)))
  }

  /** The dictionary write of one annotated feature. */
  function EntryWrite(): Feature -> Option<DictEntry>
  {
    (f: Feature) => if f.props.Some? then Some(DictEntry(f.props.value.centre, f.props.value.names)) else None
  }

  /** The annotated features together with the dictionary. */
  datatype Index = Index(features: seq<Feature>, dict: PostcodeDict)

  /** Labelling keeps ids and properties: a labelled feature is listed, and
      writes the dictionary, exactly when its original is listed. */
  lemma AnnotatedKeys(dict: PostcodeDict, fs: seq<Feature>, annotated: seq<Feature>, geo: Geodesy)
    requires |annotated| == |fs| && forall i :: 0 <= i < |fs| ==> annotated[i] == Annotate(fs[i], geo)
    ensures forall k :: Listed(annotated, k) <==> Listed(fs, k)
    ensures forall k :: k in Overlay(dict, annotated, EntryWrite()) <==> k in dict || Listed(fs, k)
  {
    forall k
      ensures Listed(annotated, k) <==> Listed(fs, k)
      ensures k in Overlay(dict, annotated, EntryWrite()) <==> k in dict || Listed(fs, k)
    {
      OverlayDomain(dict, annotated, EntryWrite(), k);
      if Listed(fs, k) {
        var i :| 0 <= i < |fs| && fs[i].id == k && fs[i].props.Some?;
        assert annotated[i].id == k && EntryWrite()(annotated[i]).Some?;
      }
      if Touches(annotated, EntryWrite(), k) {
        var i :| 0 <= i < |annotated| && annotated[i].id == k && EntryWrite()(annotated[i]).Some?;
        assert fs[i].id == k && fs[i].props.Some?;
      }
    }
  }

  /** `compute_centres`: every feature is labelled in place, in order, and the
      dictionary gains exactly the postcodes of features with properties;
      entries already there stay. */
  function ComputeCentres(dict: PostcodeDict, fs: seq<Feature>, geo: Geodesy): (r: Index)
    ensures |r.features| == |fs|
    ensures forall i :: 0 <= i < |fs| ==> r.features[i] == Annotate(fs[i], geo)
    ensures forall k :: k in r.dict <==> k in dict || Listed(fs, k)
  {
    var annotated := seq(|fs|, i requires 0 <= i < |fs| => Annotate(fs[i], geo));
    AnnotatedKeys(dict, fs, annotated, geo);
    Index(annotated, Overlay(dict, annotated, EntryWrite()))
  }

  /** Labelling keeps which postcodes are listed. */
  lemma ListedAfterIndex(dict: PostcodeDict, fs: seq<Feature>, geo: Geodesy)
    ensures forall k :: Listed(ComputeCentres(dict, fs, geo).features, k) <==> Listed(fs, k)
  {
    AnnotatedKeys(dict, fs, ComputeCentres(dict, fs, geo).features, geo);
  }

  /** The entry of a postcode comes from its last feature with properties:
      the suburb names as given, and the centre of mass (polygon), the
      centroid (multi-polygon) or the previously stored centre (any other
      shape). */
  lemma DictionaryEntry(dict: PostcodeDict, fs: seq<Feature>, geo: Geodesy, i: int)
    requires 0 <= i < |fs| && fs[i].props.Some?
    requires forall j :: i < j < |fs| && fs[j].id == fs[i].id ==> fs[j].props.None?
    ensures var r := ComputeCentres(dict, fs, geo).dict;
            && fs[i].id in r
            && r[fs[i].id].names == fs[i].props.value.names
            && r[fs[i].id].centre == CentreFor(fs[i].geometry, fs[i].props.value.centre, geo)
  {
    var r := ComputeCentres(dict, fs, geo);
    OverlayLast(dict, r.features, EntryWrite(), i);
  }
}

=== FILE: distances.dfy ===
/** `computeUnsetDistances` and `compute_distances`: the table from postcode
    to distance (in kilometres) that the map highlighting and the case count
    read. */
module Distances {

  import opened Options
  import opened Features
  import opened Tables

  /** JavaScript's `Number.MAX_VALUE`, (2 - 2^-52) * 2^1023, the start value
      of every vertex minimum. */
  const MAX_VALUE: real :=
    179769313486231570814527423731704356798070567525844996598917476803157260780028538760589558632766878171540458953514382464234321326889464182768467546703537516986049910576551282076245490090389328944075868508455133942304583236903222948165808559332123348274797826204144723168738177180919299881250404026184124858368.0

  /** The distance every postcode gets while no postcode is selected. */
  const UNSET_DISTANCE: real := 2000.0

  type DistanceTable = map<string, real>

  /** Minimum of `acc` and the distance from `from` to each vertex of `ring`,
      updating only on a strictly smaller distance. */
  function RingMin(dist: (Point, Point) -> real, from: Point, ring: Ring, acc: real): (r: real)
    ensures r <= acc
    ensures forall i :: 0 <= i < |ring| ==> r <= dist(from, ring[i])
    ensures r == acc || exists i :: 0 <= i < |ring| && r == dist(from, ring[i])
    decreases |ring|
  {
    if |ring| == 0 then acc
    else
      var d := dist(from, ring[0]);
      RingMin(dist, from, ring[1..], if d < acc then d else acc)
  }

  /** The same minimum carried across the exterior rings of all parts of a
      multi-polygon, in order. */
  function PartsMin(dist: (Point, Point) -> real, from: Point, parts: seq<PolygonCoords>, acc: real): (r: real)
    ensures r <= acc
    ensures forall p, i :: 0 <= p < |parts| && 0 <= i < |parts[p].exterior| ==> r <= dist(from, parts[p].exterior[i])
    ensures r == acc || exists p, i :: 0 <= p < |parts| && 0 <= i < |parts[p].exterior| && r == dist(from, parts[p].exterior[i])
    decreases |parts|
  {
    if |parts| == 0 then acc
    else PartsMin(dist, from, parts[1..], RingMin(dist, from, parts[0].exterior, acc))
  }

  /** The vertex-sampled distance from `from` to a geometry: over ring 0 of a
      polygon, over ring 0 of every part of a multi-polygon; none for any
      other shape. */
  function VertexDistance(dist: (Point, Point) -> real, from: Point, g: Geometry): Option<real>
  {
    match g
    case Polygon(pc) => Some(RingMin(dist, from, pc.exterior, MAX_VALUE))
    case MultiPolygon(parts) => Some(PartsMin(dist, from, parts, MAX_VALUE))
    case Other => None
  }

  /** The exterior rings of all parts, one after another. */
  function Exteriors(parts: seq<PolygonCoords>): Ring
  {
    if |parts| == 0 then [] else parts[0].exterior + Exteriors(parts[1..])
  }

  /** Folding over a concatenation is folding over the second part from where
      the first left off. */
  lemma {:induction false} RingMinAppend(dist: (Point, Point) -> real, from: Point, a: Ring, b: Ring, acc: real)
    ensures RingMin(dist, from, a + b, acc) == RingMin(dist, from, b, RingMin(dist, from, a, acc))
    decreases |a|
  {
    if |a| > 0 {
      var d := dist(from, a[0]);
      assert (a + b)[1..] == a[1..] + b;
      RingMinAppend(dist, from, a[1..], b, if d < acc then d else acc);
    } else {
      assert a + b == b;
    }
  }

  /** A multi-polygon's distance is the polygon computation over all its
      exterior rings laid end to end: the parts are not treated differently
      from one long ring. */
  lemma {:induction false} MultiPolygonIsFlatRing(dist: (Point, Point) -> real, from: Point, parts: seq<PolygonCoords>, acc: real)
    ensures PartsMin(dist, from, parts, acc) == RingMin(dist, from, Exteriors(parts), acc)
    decreases |parts|
  {
    if |parts| > 0 {
      RingMinAppend(dist, from, parts[0].exterior, Exteriors(parts[1..]), acc);
      MultiPolygonIsFlatRing(dist, from, parts[1..], RingMin(dist, from, parts[0].exterior, acc));
    }
  }

  /** What `computeUnsetDistances` writes for one feature. */
  function SentinelWrite(): Feature -> Option<real>
  {
    (f: Feature) => if f.props.Some? then Some(UNSET_DISTANCE) else None
  }

  /** Stating the sentinel writes key by key: every key some feature with
      properties carries ends at the sentinel, every other key is left as it
      was. */
  lemma SentinelOverlay(table: DistanceTable, fs: seq<Feature>)
    ensures forall k :: Listed(fs, k) ==> k in Overlay(table, fs, SentinelWrite()) && Overlay(table, fs, SentinelWrite())[k] == UNSET_DISTANCE
    ensures forall k :: !Listed(fs, k) ==> (k in Overlay(table, fs, SentinelWrite()) <==> k in table)
    ensures forall k :: !Listed(fs, k) && k in table ==> Overlay(table, fs, SentinelWrite())[k] == table[k]
  {
    forall k | Listed(fs, k) ensures k in Overlay(table, fs, SentinelWrite()) && Overlay(table, fs, SentinelWrite())[k] == UNSET_DISTANCE {
      var i :| 0 <= i < |fs| && fs[i].id == k && fs[i].props.Some?;
      assert SentinelWrite()(fs[i]).Some?;
      OverlayUniform(table, fs, SentinelWrite(), k, UNSET_DISTANCE);
    }
    forall k | !Listed(fs, k)
      ensures (k in Overlay(table, fs, SentinelWrite()) <==> k in table)
      ensures k in table ==> Overlay(table, fs, SentinelWrite())[k] == table[k]
    {
      OverlayUntouched(table, fs, SentinelWrite(), k);
    }
  }

  /** `computeUnsetDistances` on loaded data: every postcode with properties
      is set to the sentinel in place; no other key is added, removed or
      changed. */
  function UnsetDistances(table: DistanceTable, fs: seq<Feature>): (r: DistanceTable)
    ensures forall k :: Listed(fs, k) ==> k in r && r[k] == UNSET_DISTANCE
    ensures forall k :: !Listed(fs, k) ==> (k in r <==> k in table)
    ensures forall k :: !Listed(fs, k) && k in table ==> r[k] == table[k]
  {
    SentinelOverlay(table, fs);
    Overlay(table, fs, SentinelWrite())
  }

  /** One iteration of `compute_distances`: store the vertex minimum of a
      polygon or multi-polygon with properties, then, for a feature with
      properties whose id is the origin postcode, store 0 over it. */
  function DistanceStep(table: DistanceTable, f: Feature, dist: (Point, Point) -> real, from: Point, origin: Option<string>): DistanceTable
  {
    var measured :=
      match VertexDistance(dist, from, f.geometry)
      case Some(d) => if f.props.Some? then table[f.id := d] else table
      case None => table;
    if f.props.Some? && origin == Some(f.id) then measured[f.id := 0.0] else measured
  }

  /** The net write of one iteration of `compute_distances`. */
  function DistanceWrite(dist: (Point, Point) -> real, from: Point, origin: Option<string>): Feature -> Option<real>
  {
    (f: Feature) =>
      if f.props.None? then None
      else if origin == Some(f.id) then Some(0.0)
      else VertexDistance(dist, from, f.geometry)
  }

  /** An iteration's two writes (the vertex minimum, then 0 for the origin)
      amount to one write of `DistanceWrite`. */
  lemma StepIsWrite(table: DistanceTable, f: Feature, dist: (Point, Point) -> real, from: Point, origin: Option<string>)
    ensures DistanceStep(table, f, dist, from, origin) == Write(table, f, DistanceWrite(dist, from, origin))
  {
    var stepped := DistanceStep(table, f, dist, from, origin);
    if f.props.Some? && origin == Some(f.id) {
      assert stepped == table[f.id := 0.0];
    } else if f.props.Some? && VertexDistance(dist, from, f.geometry).Some? {
      assert stepped == table[f.id := VertexDistance(dist, from, f.geometry).value];
    } else {
      assert stepped == table;
    }
  }

  /** `compute_distances`, one `DistanceStep` per feature in order. The whole
      loop is a keyed in-place update of the existing table: the fold of the
      per-feature net writes. */
  function ComputeDistances(table: DistanceTable, fs: seq<Feature>, dist: (Point, Point) -> real, from: Point, origin: Option<string>): (r: DistanceTable)
    ensures r == Overlay(table, fs, DistanceWrite(dist, from, origin))
    decreases |fs|
  {
    if |fs| == 0 then table
    else
      StepIsWrite(table, fs[0], dist, from, origin);
      ComputeDistances(DistanceStep(table, fs[0], dist, from, origin), fs[1..], dist, from, origin)
  }

  /** The selected postcode ends at distance exactly 0 as soon as some feature
      with properties carries it, whatever its shape. */
  lemma OriginIsZero(table: DistanceTable, fs: seq<Feature>, dist: (Point, Point) -> real, from: Point, o: string)
    requires Listed(fs, o)
    ensures var r := ComputeDistances(table, fs, dist, from, Some(o));
            o in r && r[o] == 0.0
  {
    var w := DistanceWrite(dist, from, Some(o));
    var i :| 0 <= i < |fs| && fs[i].id == o && fs[i].props.Some?;
    assert w(fs[i]).Some?;
    OverlayUniform(table, fs, w, o, 0.0);
  }

  /** Any other postcode with properties and a known shape holds the vertex
      minimum of its last such feature. */
  lemma EntryIsVertexMinimum(table: DistanceTable, fs: seq<Feature>, dist: (Point, Point) -> real, from: Point, origin: Option<string>, i: int)
    requires 0 <= i < |fs| && fs[i].props.Some? && !fs[i].geometry.Other?
    requires origin != Some(fs[i].id)
    requires forall j :: i < j < |fs| && fs[j].id == fs[i].id ==> fs[j].props.None? || fs[j].geometry.Other?
    ensures var r := ComputeDistances(table, fs, dist, from, origin);
            && fs[i].id in r
            && Some(r[fs[i].id]) == VertexDistance(dist, from, fs[i].geometry)
  {
    OverlayLast(table, fs, DistanceWrite(dist, from, origin), i);
  }

  /** A postcode whose features are all skipped (absent properties, or an
      unknown shape without being the origin) keeps whatever it had: the table
      is patched, not rebuilt. */
  lemma StaleEntriesSurvive(table: DistanceTable, fs: seq<Feature>, dist: (Point, Point) -> real, from: Point, origin: Option<string>, k: string)
    requires forall j :: 0 <= j < |fs| && fs[j].id == k ==> fs[j].props.None? || (fs[j].geometry.Other? && origin != Some(k))
    ensures var r := ComputeDistances(table, fs, dist, from, origin);
            && (k in r <==> k in table)
            && (k in table ==> r[k] == table[k])
  {
    OverlayUntouched(table, fs, DistanceWrite(dist, from, origin), k);
  }

  /** Recomputing from the same point with the same origin gives the same
      table again. */
  lemma ComputeDistancesIdempotent(table: DistanceTable, fs: seq<Feature>, dist: (Point, Point) -> real, from: Point, origin: Option<string>)
    ensures var once := ComputeDistances(table, fs, dist, from, origin);
            ComputeDistances(once, fs, dist, from, origin) == once
  {
    var once := ComputeDistances(table, fs, dist, from, origin);
    OverlayIdempotent(table, fs, DistanceWrite(dist, from, origin));
  }
}

=== FILE: features.dfy ===
/** The decoded GeoJSON feature collection the application works on: one
    feature per NSW postcode. */
module Features {

  import opened Options

  /** A GeoJSON position, [longitude, latitude]. */
  datatype Point = Point(lng: real, lat: real)

  type Ring = seq<Point>

  /** The coordinates of one polygon: the exterior ring (ring 0) followed by
      any holes, as section 3.1.6 of RFC 7946 lays them out. */
  datatype PolygonCoords = PolygonCoords(exterior: Ring, holes: seq<Ring>)

  /** The geometry kinds the application distinguishes; every other GeoJSON
      geometry type is `Other`. */
  datatype Geometry =
    | Polygon(coords: PolygonCoords)
    | MultiPolygon(parts: seq<PolygonCoords>)
    | Other

  /** A feature's `properties` object: the suburb names, the case count, and
      the fields the application writes into it (`names_string`, and
      `centre_lng`/`centre_lat` as one optional point). */
  datatype Props = Props(
    names: seq<string>,
    cases: int,
    namesString: Option<string>,
    centre: Option<Point>)

  /** A feature: its postcode `id`, its properties (`None` when they are
      null) and its geometry. */
  datatype Feature = Feature(id: string, props: Option<Props>, geometry: Geometry)

  /** The foreign geodesy of turf: `distance`, `centerOfMass` of a polygon and
      `centroid` of a multi-polygon. Their floating-point results are left
      uninterpreted. */
  datatype Geodesy = Geodesy(
    distance: (Point, Point) -> real,
    centerOfMass: PolygonCoords -> Point,
    centroid: seq<PolygonCoords> -> Point)

  /** Some feature of `fs` with non-null properties carries postcode `k`. */
  ghost predicate Listed(fs: seq<Feature>, k: string)
  {
    exists i :: 0 <= i < |fs| && fs[i].id == k && fs[i].props.Some?
  }
}

=== FILE: header.dfy ===
/** The `Header` component: classifying the typed postcode, gating the
    submit button, the helper message, the "Change postcode" button and the
    range slider. */
module Header {

  import opened Options
  import opened Features
  import opened Text
  import opened Centres
  import opened Distances
  import opened App

  /** The three outcomes of `validatePostcode`. */
  datatype PostcodeStatus = Invalid | Unknown | Valid

  const POSTCODE_LENGTH: nat := 4

  /** The regular expression `/^\d+$/`: one or more ASCII digits and nothing
      else. */
  predicate MatchesDigits(code: string)
  {
    |code| >= 1 && AllDigits(code)
  }

  /** `validatePostcode`, branch for branch. The last branch can never be
      taken: its condition contradicts the first one. */
  function ValidatePostcode(code: string, dict: PostcodeDict): (r: PostcodeStatus)
    ensures r == Valid <==> code in dict
    ensures code !in dict && |code| != POSTCODE_LENGTH ==> r == Invalid
    ensures code !in dict && |code| == POSTCODE_LENGTH && !AllDigits(code) ==> r == Invalid
    ensures r == Unknown <==> code !in dict && |code| == POSTCODE_LENGTH && AllDigits(code)
  {
    if code in dict then Valid
    else if |code| != POSTCODE_LENGTH then Invalid
    else if !MatchesDigits(code) then Invalid
    else if code !in dict then Unknown
    else Invalid
  }

  /** `postCodeIsSubmittable`: the submit button is enabled exactly for
      dictionary keys. */
  function PostCodeIsSubmittable(code: string, dict: PostcodeDict): (r: bool)
    ensures r <==> code in dict
  {
    ValidatePostcode(code, dict) == Valid
  }

  const NOT_IN_DATABASE: string := " is not in our database of NSW postcodes"
  const ENTER_POSTCODE: string := "Enter a NSW postcode"

  /** `getPostCodeResultMessage`, stated directly on the typed code. */
  function ResultMessage(code: string, dict: PostcodeDict): (r: string)
    ensures code in dict ==> r == Join(dict[code].names, ", ")
    ensures code !in dict && |code| == POSTCODE_LENGTH && AllDigits(code) ==> r == code + NOT_IN_DATABASE
    ensures code !in dict && (|code| != POSTCODE_LENGTH || !AllDigits(code)) ==> r == ENTER_POSTCODE
  {
    match ValidatePostcode(code, dict)
    case Valid => Join(dict[code].names, ", ")
    case Unknown => code + NOT_IN_DATABASE
    case Invalid => ENTER_POSTCODE
  }

  /** The slider's bounds and step, in kilometres. */
  const SLIDER_MIN: real := 0.0
  const SLIDER_MAX: real := 20.0
  const SLIDER_STEP: real := 0.5

  /** A value the slider can produce. */
  predicate Selectable(range: real)
  {
    SLIDER_MIN <= range <= SLIDER_MAX && (range / SLIDER_STEP).Floor as real == range / SLIDER_STEP
  }

  /** The submit button's click: calls `updatePostcode` with the typed code,
      but only while the button is enabled. */
  function Submit(input: string, app: AppState, geo: Geodesy): (r: AppState)
    ensures input in app.dict ==> r == UpdatePostcode(app, Some(input), geo)
    ensures input !in app.dict ==> r == app
  {
    if PostCodeIsSubmittable(input, app.dict) then UpdatePostcode(app, Some(input), geo) else app
  }

  /** The "Change postcode" click: empties the input and clears the
      selection. Afterwards (unless the empty string is itself a key) the
      helper reads "Enter a NSW postcode" and submitting is disabled; the
      selection and centre are cleared and, with data loaded, every postcode
      is back at the sentinel and the table is dirty. */
  function ChangePostcode(app: AppState, geo: Geodesy): (r: (string, AppState))
    ensures r.0 == ""
    ensures "" !in app.dict ==> ResultMessage(r.0, r.1.dict) == ENTER_POSTCODE && !PostCodeIsSubmittable(r.0, r.1.dict)
    ensures r.1.centrePostCode.None? && r.1.centreCoordinates.None?
    ensures r.1.dict == app.dict && r.1.mapData == app.mapData && r.1.range == app.range
    ensures app.mapData.Some? ==> r.1.distancesDirty
    ensures app.mapData.Some? ==>
              forall k :: Listed(app.mapData.value, k) ==> k in r.1.distances && r.1.distances[k] == UNSET_DISTANCE
  {
    ("", UpdatePostcode(app, None, geo))
  }
}

=== FILE: labels.dfy ===
/** The suburb label (`names_string`) shown for a postcode. */
module Labels {

  import opened Text

  /** How many suburb names a label spells out. */
  const NUM_SUBURBS_TO_SHOW: nat := 4

  const SEPARATOR: string := ", "

  /** Up to four names are listed in full; beyond that the first four are
      followed by " and N more suburb", pluralised when N > 1. */
  function NamesString(names: seq<string>): (r: string)
    ensures Join(Shown(names), SEPARATOR) <= r
    ensures r == Join(Shown(names), SEPARATOR) <==> |names| <= NUM_SUBURBS_TO_SHOW
  {
    if |names| <= NUM_SUBURBS_TO_SHOW then Join(names, SEPARATOR)
    else
      var remainder := |names| - NUM_SUBURBS_TO_SHOW;
      Join(names[..NUM_SUBURBS_TO_SHOW], SEPARATOR) + " and " + NatToString(remainder)
        + " more suburb" + (if remainder > 1 then "s" else "")
  }

  /** The names actually spelled out in a label. */
  function Shown(names: seq<string>): seq<string>
  {
    if |names| <= NUM_SUBURBS_TO_SHOW then names else names[..NUM_SUBURBS_TO_SHOW]
  }

  /** The shown names are at most four and are the first names in their
      original order; a short, non-empty label is as long as all names plus
      one separator between neighbours. */
  lemma {:induction false} LabelShape(names: seq<string>)
    ensures |Shown(names)| <= NUM_SUBURBS_TO_SHOW
    ensures Shown(names) == names[..|Shown(names)|]
    ensures |Shown(names)| == if |names| <= NUM_SUBURBS_TO_SHOW then |names| else NUM_SUBURBS_TO_SHOW
    ensures 0 < |names| <= NUM_SUBURBS_TO_SHOW ==>
              |NamesString(names)| == TotalLength(names) + |SEPARATOR| * (|names| - 1)
  {
    if 0 < |names| <= NUM_SUBURBS_TO_SHOW {
      JoinLength(names, SEPARATOR);
    }
  }

  /** For a long list, the count of hidden names can be read back out of the
      label: after the first four names and " and " comes a run of decimal
      digits whose value is the number of remaining names, then
      " more suburbs" when more than one name is hidden and " more suburb"
      when exactly one is. */
  lemma LongLabelCount(names: seq<string>)
    requires |names| > NUM_SUBURBS_TO_SHOW
    ensures var text := NamesString(names);
            var p := |Join(names[..NUM_SUBURBS_TO_SHOW], SEPARATOR)| + 5;
            var q := p + |NatToString(|names| - NUM_SUBURBS_TO_SHOW)|;
            && q <= |text|
            && text[..p] == Join(names[..NUM_SUBURBS_TO_SHOW], SEPARATOR) + " and "
            && AllDigits(text[p..q])
            && ParseDecimal(text[p..q]) == |names| - NUM_SUBURBS_TO_SHOW
            && text[q..] == (if |names| > NUM_SUBURBS_TO_SHOW + 1 then " more suburbs" else " more suburb")
  {
    var head := Join(names[..NUM_SUBURBS_TO_SHOW], SEPARATOR) + " and ";
    var digits := NatToString(|names| - NUM_SUBURBS_TO_SHOW);
    var tail := if |names| > NUM_SUBURBS_TO_SHOW + 1 then " more suburbs" else " more suburb";
    var text := NamesString(names);
    assert text == head + digits + tail;
    assert text[..|head|] == head;
    assert text[|head|..|head| + |digits|] == digits;
    assert text[|head| + |digits|..] == tail;
    DecimalRoundTrip(|names| - NUM_SUBURBS_TO_SHOW);
  }
}

=== FILE: options.dfy ===
/** An optional value: stands for JavaScript's `undefined`/`null` wherever the
    application tests for their absence. */
module Options {

  datatype Option<+T> = None | Some(value: T)
}

=== FILE: scenario.dfy ===
/** The two-region example with literal coordinates: a unit square `A`
    (10 cases) and a far-away square `B` (5 cases). Distances use a planar
    stand-in for turf's geodesic distance, one coordinate unit per km, so
    the numbers can be worked out by hand. */
module Scenario {

  import opened Options
  import opened Features
  import opened Distances
  import opened Cases

  function Abs(x: real): real
  {
    if x < 0.0 then -x else x
  }

  /** Taxicab distance: a stand-in with exact values. */
  function Planar(p: Point, q: Point): real
  {
    Abs(p.lng - q.lng) + Abs(p.lat - q.lat)
  }

  function Square(x: real, y: real): Ring
  {
    [Point(x, y), Point(x + 1.0, y), Point(x + 1.0, y + 1.0), Point(x, y + 1.0), Point(x, y)]
  }

  function RegionA(): Feature
  {
    Feature("A", Some(Props(["Alpha"], 10, None, None)), Polygon(PolygonCoords(Square(0.0, 0.0), [])))
  }

  function RegionB(): Feature
  {
    Feature("B", Some(Props(["Beta"], 5, None, None)), Polygon(PolygonCoords(Square(100.0, 100.0), [])))
  }

  /** The ring minimum of a square from a point below-left of it is reached
      at its first vertex. */
  lemma SquareMin(x: real, y: real, from: Point)
    requires 0.0 <= from.lng <= x <= 1000.0 && 0.0 <= from.lat <= y <= 1000.0
    ensures RingMin(Planar, from, Square(x, y), MAX_VALUE) == (x - from.lng) + (y - from.lat)
  {
  }

  /** From the centre of the unit square every vertex is 1 away. */
  lemma CentreOfUnitSquare()
    ensures RingMin(Planar, Point(0.5, 0.5), Square(0.0, 0.0), MAX_VALUE) == 1.0
  {
  }

  /** The count over the two regions, given their table entries. */
  lemma CountTwo(range: real, t: DistanceTable)
    requires "A" in t && "B" in t
    ensures CountCases(range, t, Some([RegionA(), RegionB()])) ==
              (if t["A"] <= range then 10 else 0) + (if t["B"] <= range then 5 else 0)
  {
  }

  /** Selecting `A` from its corner: `A` is at 0, `B` at 200, and a range of
      1 km counts `A`'s 10 cases and not `B`'s 5. */
  lemma FromCornerWithOrigin()
    ensures var t := ComputeDistances(map[], [RegionA(), RegionB()], Planar, Point(0.0, 0.0), Some("A"));
            && "A" in t && t["A"] == 0.0
            && "B" in t && t["B"] == 200.0
            && CountCases(1.0, t, Some([RegionA(), RegionB()])) == 10
  {
    var from := Point(0.0, 0.0);
    var fs := [RegionA(), RegionB()];
    SquareMin(100.0, 100.0, from);
    assert fs[0].id == "A" && fs[0].props.Some?;
    OriginIsZero(map[], fs, Planar, from, "A");
    EntryIsVertexMinimum(map[], fs, Planar, from, Some("A"), 1);
    CountTwo(1.0, ComputeDistances(map[], fs, Planar, from, Some("A")));
  }

  /** From the centre of `A` without forcing an origin, `A`'s nearest vertex is
      1 km away: a range of 0.5 km counts nothing although the point lies
      inside `A`, and a range of 1 km counts `A` alone. */
  lemma FromInsideWithoutOrigin()
    ensures var t := ComputeDistances(map[], [RegionA(), RegionB()], Planar, Point(0.5, 0.5), None);
            && "A" in t && t["A"] == 1.0
            && "B" in t && t["B"] == 199.0
            && CountCases(0.5, t, Some([RegionA(), RegionB()])) == 0
            && CountCases(1.0, t, Some([RegionA(), RegionB()])) == 10
  {
    var from := Point(0.5, 0.5);
    var fs := [RegionA(), RegionB()];
    CentreOfUnitSquare();
    SquareMin(100.0, 100.0, from);
    assert fs[1].id != fs[0].id;
    EntryIsVertexMinimum(map[], fs, Planar, from, None, 0);
    EntryIsVertexMinimum(map[], fs, Planar, from, None, 1);
    var t := ComputeDistances(map[], fs, Planar, from, None);
    CountTwo(0.5, t);
    CountTwo(1.0, t);
  }
}

=== FILE: session.dfy ===
/** The two components wired together: every way the user, the data load or
    the map can change the state, and what stays true across all of them. */
module Session {

  import opened Features
  import opened Distances
  import opened Cases
  import opened App
  import opened Header

  /** The application state together with the header's input text. */
  datatype Ui = Ui(app: AppState, input: string)

  datatype Event =
    | DataLoaded(fs: seq<Feature>)     // the decoded collection arrives (once)
    | Typed(text: string)              // the input's onChange
    | Submitted                        // the submit button
    | ChangeRequested                  // the "Change postcode" button
    | RangeMoved(range: real)          // the slider's onChange
    | DistancesSynced                  // the map has pushed the table: clearDirty

  function Start(): Ui
  {
    Ui(Initial(), "")
  }

  /** One event. Only typing changes the input text besides the "Change
      postcode" button, which empties it; only the slider moves the range and
      only to a selectable value; only the first data load stores data and
      changes the dictionary; the map's acknowledgement leaves the table
      clean. */
  function Step(u: Ui, e: Event, geo: Geodesy): (r: Ui)
    ensures e.Typed? ==> r.app == u.app && r.input == e.text
    ensures !e.Typed? && !e.ChangeRequested? ==> r.input == u.input
    ensures e.ChangeRequested? ==> r.input == ""
    ensures r.app.range == u.app.range || (e.RangeMoved? && r.app.range == e.range && Selectable(e.range))
    ensures r.app.mapData == u.app.mapData || (e.DataLoaded? && u.app.mapData.None? && r.app.mapData.Some?)
    ensures r.app.dict == u.app.dict || (e.DataLoaded? && u.app.mapData.None?)
    ensures e.DistancesSynced? ==> !r.app.distancesDirty
  {
    match e
    case DataLoaded(fs) => if u.app.mapData.None? then u.(app := Load(u.app, fs, geo)) else u
    case Typed(text) => u.(input := text)
    case Submitted => u.(app := Submit(u.input, u.app, geo))
    case ChangeRequested =>
      var (input, app) := ChangePostcode(u.app, geo);
      Ui(app, input)
    case RangeMoved(range) => if Selectable(range) then u.(app := SetRange(u.app, range)) else u
    case DistancesSynced => u.(app := ClearDirty(u.app))
  }

  /** The selected postcode's distance entry is 0 and the centre is its
      dictionary centre (when that centre is defined). */
  ghost predicate HomeIsOrigin(s: AppState)
  {
    s.centrePostCode.Some? && s.centrePostCode.value in s.dict && s.dict[s.centrePostCode.value].centre.Some? ==>
      && s.centreCoordinates == s.dict[s.centrePostCode.value].centre
      && s.centrePostCode.value in s.distances
      && s.distances[s.centrePostCode.value] == 0.0
  }

  /** With data loaded and nothing selected, every postcode is at the
      sentinel. */
  ghost predicate UnsetWhenNoSelection(s: AppState)
  {
    s.centrePostCode.None? && s.mapData.Some? ==>
      forall k :: Listed(s.mapData.value, k) ==> k in s.distances && s.distances[k] == UNSET_DISTANCE
  }

  ghost predicate Inv(u: Ui)
  {
    var s := u.app;
    && Selectable(s.range)
    && (s.mapData.None? ==> s.dict == map[] && s.centrePostCode.None?)
    && (s.mapData.Some? ==> forall k :: k in s.dict ==> Listed(s.mapData.value, k))
    && (s.centrePostCode.Some? ==> s.centrePostCode.value in s.dict)
    && HomeIsOrigin(s)
    && UnsetWhenNoSelection(s)
  }

  lemma StartInv()
    ensures Inv(Start())
  {
    assert (2.0 as real).Floor == 2;
  }

  /** Every event keeps the invariant. In particular the submit gate means
      `updatePostcode` only ever sees a dictionary key or nothing. */
  lemma StepPreservesInv(u: Ui, e: Event, geo: Geodesy)
    requires Inv(u)
    ensures Inv(Step(u, e, geo))
  {
    var s := u.app;
    var r := Step(u, e, geo).app;
    match e
    case DataLoaded(_) =>
    case Typed(_) =>
    case Submitted =>
      if u.input in s.dict {
        var c := u.input;
        if s.dict[c].centre.Some? {
          UpdateToKnownCode(s, c, geo);
        }
      }
    case ChangeRequested =>
    case RangeMoved(_) =>
    case DistancesSynced =>
  }

  /** With data loaded and no postcode selected, the count passed to the
      header is 0 whatever the range. (The header displays the count only
      once a postcode is selected.) */
  lemma NoSelectionCountsNothing(u: Ui)
    requires Inv(u) && u.app.centrePostCode.None? && u.app.mapData.Some?
    ensures NumCases(u.app) == 0
  {
    var s := u.app;
    var fs := s.mapData.value;
    forall i | 0 <= i < |fs| && fs[i].props.Some? && fs[i].id in s.distances
      ensures s.distances[fs[i].id] > s.range
    {
      assert Listed(fs, fs[i].id);
    }
    NothingInRange(s.range, s.distances, fs);
  }

  /** With a postcode selected whose dictionary centre is defined, that
      postcode's own cases are always part of the count, at every selectable
      range: the count is what the features before and after it contribute
      plus exactly its cases. */
  lemma SelectionCountsHome(u: Ui, i: int)
    requires Inv(u) && u.app.mapData.Some?
    requires u.app.centrePostCode.Some? && u.app.dict[u.app.centrePostCode.value].centre.Some?
    requires 0 <= i < |u.app.mapData.value|
    requires u.app.mapData.value[i].id == u.app.centrePostCode.value && u.app.mapData.value[i].props.Some?
    ensures var fs := u.app.mapData.value;
            NumCases(u.app)
            == SumCases(u.app.range, u.app.distances, fs[..i]) + fs[i].props.value.cases
               + SumCases(u.app.range, u.app.distances, fs[i + 1..])
  {
    InRangeIsCounted(u.app.range, u.app.distances, u.app.mapData.value, i);
  }
}

=== FILE: tables.dfy ===
/** The per-feature dictionary writes the application performs with
    `Map.set` inside `features.forEach`: a left fold in feature order in which
    a later write to the same key replaces an earlier one and keys nobody
    writes keep what they had. */
module Tables {

  import opened Options
  import opened Features

  /** One iteration: `w(f)` says what, if anything, is stored under `f.id`. */
  function Write<V>(m: map<string, V>, f: Feature, w: Feature -> Option<V>): map<string, V>
  {
    match w(f)
    case None => m
    case Some(v) => m[f.id := v]
  }

  /** The whole `forEach`, applied to the map in place. */
  function Overlay<V>(m: map<string, V>, fs: seq<Feature>, w: Feature -> Option<V>): map<string, V>
    decreases |fs|
  {
    if |fs| == 0 then m else Overlay(Write(m, fs[0], w), fs[1..], w)
  }

  /** Some feature of `fs` writes key `k`. */
  ghost predicate Touches<V>(fs: seq<Feature>, w: Feature -> Option<V>, k: string)
  {
    exists i :: 0 <= i < |fs| && fs[i].id == k && w(fs[i]).Some?
  }

  /** `m1` and `m2` agree on every key that `fs` does not write. */
  ghost predicate AgreeOff<V>(m1: map<string, V>, m2: map<string, V>, fs: seq<Feature>, w: Feature -> Option<V>)
  {
    forall k :: !Touches(fs, w, k) ==> (k in m1 <==> k in m2) && (k in m1 ==> m1[k] == m2[k])
  }

  lemma TouchesCons<V>(fs: seq<Feature>, w: Feature -> Option<V>, k: string)
    requires |fs| > 0
    ensures Touches(fs, w, k) <==> (fs[0].id == k && w(fs[0]).Some?) || Touches(fs[1..], w, k)
  {
    if Touches(fs, w, k) {
      var i :| 0 <= i < |fs| && fs[i].id == k && w(fs[i]).Some?;
      if i > 0 {
        assert fs[1..][i - 1] == fs[i];
      }
    }
    if Touches(fs[1..], w, k) {
      var i :| 0 <= i < |fs[1..]| && fs[1..][i].id == k && w(fs[1..][i]).Some?;
      assert fs[i + 1] == fs[1..][i];
    }
  }

  /** A key is present afterwards exactly when it was present before or some
      feature writes it. */
  lemma {:induction false} OverlayDomain<V>(m: map<string, V>, fs: seq<Feature>, w: Feature -> Option<V>, k: string)
    ensures k in Overlay(m, fs, w) <==> k in m || Touches(fs, w, k)
    decreases |fs|
  {
    if |fs| > 0 {
      TouchesCons(fs, w, k);
      OverlayDomain(Write(m, fs[0], w), fs[1..], w, k);
    }
  }

  /** A key no feature writes keeps its value (or stays absent). */
  lemma {:induction false} OverlayUntouched<V>(m: map<string, V>, fs: seq<Feature>, w: Feature -> Option<V>, k: string)
    requires !Touches(fs, w, k)
    ensures k in Overlay(m, fs, w) <==> k in m
    ensures k in m ==> Overlay(m, fs, w)[k] == m[k]
    decreases |fs|
  {
    if |fs| > 0 {
      TouchesCons(fs, w, k);
      OverlayUntouched(Write(m, fs[0], w), fs[1..], w, k);
    }
  }

  /** The last feature that writes a key decides its value. */
  lemma {:induction false} OverlayLast<V>(m: map<string, V>, fs: seq<Feature>, w: Feature -> Option<V>, i: int)
    requires 0 <= i < |fs| && w(fs[i]).Some?
    requires forall j :: i < j < |fs| && fs[j].id == fs[i].id ==> w(fs[j]).None?
    ensures fs[i].id in Overlay(m, fs, w)
    ensures Overlay(m, fs, w)[fs[i].id] == w(fs[i]).value
    decreases |fs|
  {
    var k := fs[i].id;
    if i == 0 {
      forall j | 0 <= j < |fs[1..]| && fs[1..][j].id == k
        ensures w(fs[1..][j]).None?
      {
        assert fs[1..][j] == fs[j + 1];
      }
      OverlayUntouched(Write(m, fs[0], w), fs[1..], w, k);
    } else {
      forall j | i - 1 < j < |fs[1..]| && fs[1..][j].id == fs[1..][i - 1].id
        ensures w(fs[1..][j]).None?
      {
        assert fs[1..][j] == fs[j + 1];
      }
      OverlayLast(Write(m, fs[0], w), fs[1..], w, i - 1);
    }
  }

  /** When every write to `k` stores the same value `v`, and there is at least
      one, `k` ends holding `v`, whatever the order. */
  lemma {:induction false} OverlayUniform<V>(m: map<string, V>, fs: seq<Feature>, w: Feature -> Option<V>, k: string, v: V)
    requires Touches(fs, w, k)
    requires forall j :: 0 <= j < |fs| && fs[j].id == k && w(fs[j]).Some? ==> w(fs[j]).value == v
    ensures k in Overlay(m, fs, w) && Overlay(m, fs, w)[k] == v
    decreases |fs|
  {
    TouchesCons(fs, w, k);
    if Touches(fs[1..], w, k) {
      forall j | 0 <= j < |fs[1..]| && fs[1..][j].id == k && w(fs[1..][j]).Some?
        ensures w(fs[1..][j]).value == v
      {
        assert fs[1..][j] == fs[j + 1];
      }
      OverlayUniform(Write(m, fs[0], w), fs[1..], w, k, v);
    } else {
      OverlayUntouched(Write(m, fs[0], w), fs[1..], w, k);
    }
  }

  /** The result depends on the starting map only through the keys the
      features do not write. */
  lemma {:induction false} OverlayStable<V>(m1: map<string, V>, m2: map<string, V>, fs: seq<Feature>, w: Feature -> Option<V>)
    requires AgreeOff(m1, m2, fs, w)
    ensures Overlay(m1, fs, w) == Overlay(m2, fs, w)
    decreases |fs|
  {
    if |fs| == 0 {
      forall k ensures (k in m1 <==> k in m2) && (k in m1 ==> m1[k] == m2[k]) {
        assert !Touches(fs, w, k);
      }
      assert m1 == m2;
    } else {
      var n1, n2 := Write(m1, fs[0], w), Write(m2, fs[0], w);
      forall k | !Touches(fs[1..], w, k)
        ensures (k in n1 <==> k in n2) && (k in n1 ==> n1[k] == n2[k])
      {
        TouchesCons(fs, w, k);
      }
      OverlayStable(n1, n2, fs[1..], w);
    }
  }

  /** Running the same writes a second time changes nothing. */
  lemma OverlayIdempotent<V>(m: map<string, V>, fs: seq<Feature>, w: Feature -> Option<V>)
    ensures Overlay(Overlay(m, fs, w), fs, w) == Overlay(m, fs, w)
  {
    var once := Overlay(m, fs, w);
    forall k | !Touches(fs, w, k)
      ensures (k in once <==> k in m) && (k in once ==> once[k] == m[k])
    {
      OverlayUntouched(m, fs, w, k);
    }
    OverlayStable(once, m, fs, w);
  }
}

=== FILE: text.dfy ===
/** String building used by the application: `Array.prototype.join`, the
    decimal rendering of a count, and the ASCII digit class of `\d`. */
module Text {

  /** `xs.join(sep)` on an array of strings. */
  function Join(xs: seq<string>, sep: string): string
  {
    if |xs| == 0 then ""
    else if |xs| == 1 then xs[0]
    else xs[0] + sep + Join(xs[1..], sep)
  }

  /** Sum of the lengths of the strings in `xs`. */
  function TotalLength(xs: seq<string>): nat
  {
    if |xs| == 0 then 0 else |xs[0]| + TotalLength(xs[1..])
  }

  /** Appending one element extends the joined string by the separator and
      that element: the left-to-right step of ECMAScript's join algorithm. */
  lemma {:induction false} JoinSnoc(xs: seq<string>, x: string, sep: string)
    ensures Join(xs + [x], sep) == if |xs| == 0 then x else Join(xs, sep) + sep + x
  {
    if |xs| == 0 {
      assert xs + [x] == [x];
    } else if |xs| == 1 {
      assert (xs + [x])[1..] == [x];
    } else {
      assert (xs + [x])[1..] == xs[1..] + [x];
      JoinSnoc(xs[1..], x, sep);
    }
  }

  /** The joined string holds every element and one separator between each
      neighbouring pair, and nothing else. */
  lemma {:induction false} JoinLength(xs: seq<string>, sep: string)
    requires |xs| > 0
    ensures |Join(xs, sep)| == TotalLength(xs) + (|xs| - 1) * |sep|
  {
    if |xs| > 1 {
      JoinLength(xs[1..], sep);
    }
  }

  /** ECMAScript's join algorithm as a loop (start from the empty string; before
      every element but the first append the separator; then the element),
      shown to agree with `Join`. */
  method JoinNames(xs: seq<string>, sep: string) returns (r: string)
    ensures r == Join(xs, sep)
  {
    r := "";
    var k := 0;
    while k < |xs|
      invariant 0 <= k <= |xs|
      invariant r == Join(xs[..k], sep)
    {
      if k > 0 {
        r := r + sep;
      }
      r := r + xs[k];
      JoinSnoc(xs[..k], xs[k], sep);
      assert xs[..k + 1] == xs[..k] + [xs[k]];
      k := k + 1;
    }
    assert xs[..k] == xs;
  }

  /** The class `\d` of a JavaScript regular expression: ASCII 0-9 only. */
  predicate IsDigit(c: char)
  {
    '0' <= c <= '9'
  }

  predicate AllDigits(s: string)
  {
    forall i :: 0 <= i < |s| ==> IsDigit(s[i])
  }

  function DigitChar(d: nat): (c: char)
    requires d < 10
    ensures IsDigit(c)
  {
    ('0' as int + d) as char
  }

  function DigitValue(c: char): (d: nat)
    requires IsDigit(c)
    ensures d < 10
  {
    c as int - '0' as int
  }

  /** Decimal rendering of a non-negative integer, as a template literal
      `${n}` prints it: at least one digit and no leading zero. */
  function NatToString(n: nat): (s: string)
    ensures |s| >= 1 && AllDigits(s)
    ensures |s| == 1 || s[0] != '0'
    decreases n
  {
    if n < 10 then [DigitChar(n)]
    else NatToString(n / 10) + [DigitChar(n % 10)]
  }

  /** The value of a string of decimal digits. */
  function ParseDecimal(s: string): nat
    requires AllDigits(s)
  {
    if |s| == 0 then 0
    else 10 * ParseDecimal(s[..|s| - 1]) + DigitValue(s[|s| - 1])
  }

  /** Reading back the decimal rendering gives the number rendered. */
  lemma {:induction false} DecimalRoundTrip(n: nat)
    ensures ParseDecimal(NatToString(n)) == n
    decreases n
  {
    var s := NatToString(n);
    if n < 10 {
      assert DigitValue(DigitChar(n)) == n;
    } else {
      var d := DigitChar(n % 10);
      assert s == NatToString(n / 10) + [d];
      assert s[..|s| - 1] == NatToString(n / 10);
      assert DigitValue(d) == n % 10;
      DecimalRoundTrip(n / 10);
    }
  }
}
